=== FILE: README.md ===
# Conversation eligibility filter of xmtp-lit

This project models the logic inside `ConversationsPanel` in
`components/NavigationPanel.tsx`. When the `filter` toggle is on, the panel
checks every conversation's peer address against an access-control condition
list with the Lit signing authority and lists only the conversations whose
peer is verified. Each peer goes through the same steps:

1. Its address is written into slot 0 of clause 0 of the condition list (`Conditions.Bind`).
2. A resource descriptor is built with a random `"/"`-prefixed path (`Resources`).
3. The bound condition is registered, a JWT is requested, and the JWT is verified (`Evaluator.Run`).
4. Any exception becomes the pair `[address, false]`.

The pairs are folded into an address-to-verdict table, and the last write wins
(`EligibilityMap`). The conversation list is then filtered in order
(`Conversations`, `Batch`).

The signing authority is an `Authority.Oracle`. It holds three arbitrary total
functions, one each for `saveSigningCondition`, `getSignedToken` and
`verifyJwt`, and each returns a `Result`. The chain (`"rinkeby"`) and the
batch's single `authSig` are plain values. `Math.random().toString(36)` becomes
a parameter `random: nat -> string` that gives the rendering of the n-th draw.
Evaluation `i` uses draws `2i` and `2i+1`. This is the order in which
`peers.map` runs the synchronous prefix of each `getFiltered` call.

Four behaviours of the code are worth stating on their own terms:
- Binding into a clause whose parameter list is empty does not fail. JavaScript's `parameters[0] = address` extends the array to `[address]`. Binding faults when the list has no clause 0, or when clause 0 has no parameter list (an operator entry).
- The random path is at most 27 characters long and can be shorter. Each piece is `substring(2, 15)` of a base-36 rendering, so it has at most 13 characters and may be empty.
- One evaluation runs per conversation, not per distinct address. A peer that appears twice is evaluated twice, and its later pair wins.
- The condition list is shared, not copied: line 97 takes a reference and line 99 writes through it. This changes what the token requests carry (see Findings).

The main pipeline (`Evaluator.Run`, `Batch.Runs`, `Batch.Effect`, `Batch.Panel` and the lemmas about them) binds a fresh copy of the list for every evaluation. That is the corrected behaviour. The code as written is modelled separately, in `SharedTemplate.RunAsWritten` and `SharedTemplate.PanelAsWritten`, and the two are compared on the same scenario.

## Model

| member | source | states |
|---|---|---|
| Conditions.Bind | components/NavigationPanel.tsx:97-99 | Faults exactly on an empty list or when clause 0 has no parameter list. Otherwise slot 0 of clause 0 holds the address. Every other parameter, the clause's other fields and every other clause are unchanged. An empty parameter list becomes `[address]`. |
| Conditions.BindThenSubject | components/NavigationPanel.tsx:99 | After binding, reading the subject slot gives back the bound address. |
| Conditions.BindSubjectRoundTrip | components/NavigationPanel.tsx:99 | Binding the address a list already holds returns the same list. |
| Conditions.BindTwice | components/NavigationPanel.tsx:97-99 | Binding twice equals binding only the second address. |
| Resources.Substring | components/NavigationPanel.tsx:103-104 | JavaScript `substring` is a prefix of the suffix at the clamped lower index, and its length is the clamped index range. |
| Resources.Piece | components/NavigationPanel.tsx:103 | A path piece has min(length, 15) - min(2, length) characters of the rendering: at most 13, exactly 13 for a rendering of 15 or more, and length - 2 for the usual shorter renderings. Character k is character k+2 of the rendering. |
| Resources.RandomPath | components/NavigationPanel.tsx:101-104 | The path is "/" followed by the first piece's characters and then the second piece's. Its length is 1 plus the two piece lengths, between 1 and 27, and exactly 27 when both renderings have at least 15 characters. |
| Resources.RandomPathIsOneSegment | components/NavigationPanel.tsx:101-104 | From base-36 renderings of numbers in [0,1), every character after the leading "/" is a base-36 digit. |
| Resources.Resource | components/NavigationPanel.tsx:105-111 | The descriptor has baseUrl "http://localhost:3000", the given path, and empty orgId, role and extraData. |
| Evaluator.Protocol | components/NavigationPanel.tsx:113-127 | The save call is always made. The token is requested exactly when the save succeeded, and verified exactly when it was issued. The verdict is verify's answer when verify returns one, and false otherwise. |
| Evaluator.Run | components/NavigationPanel.tsx:95-133 | Per-copy evaluation. The pair always carries the evaluated address. A binding fault makes no authority call and yields false. Calls go save, then token, then verify. The token is requested exactly when the save succeeded, and the token is verified exactly when one was issued. Every request carries the bound copy, the chain, the authSig and the evaluation's descriptor. The verdict is verify's answer on the issued token, and false when a step failed. |
| Evaluator.Evaluate | components/NavigationPanel.tsx:95-133 | The pair carries the evaluated address. Its verdict is false when binding, save or token fails. When all succeed, the verdict is true exactly when verify returns true for the issued token. |
| Evaluator.VerdictOnSuccess | components/NavigationPanel.tsx:113-127 | When every step succeeds, the pair carries the verified claim of the issued token. |
| Evaluator.TokenRequestNamesAddress | components/NavigationPanel.tsx:97-124 | The token request names the evaluated address in its subject slot. |
| Evaluator.EmptyTemplateNeverVerifies | components/NavigationPanel.tsx:97-132 | With an empty condition list, the result is `[address, false]` and there are no authority calls. |
| EligibilityMap.LastVerdict | components/NavigationPanel.tsx:145-150 | Reference lookup: None exactly when no pair names the address. Otherwise it gives the verdict of the last pair naming it. |
| EligibilityMap.Table | components/NavigationPanel.tsx:145-150 | An unset state gives an empty table. Otherwise the keys are exactly the named addresses, and each value is that address's last verdict. |
| EligibilityMap.Fold | components/NavigationPanel.tsx:147-149 | The forEach never removes an entry, and the last pair's write is the one that stays. |
| EligibilityMap.FoldAt | components/NavigationPanel.tsx:147-149 | Per address, the forEach fold keeps the last pair's verdict, or the starting entry when no pair names the address. |
| EligibilityMap.FoldIsLastWrite | components/NavigationPanel.tsx:147-149 | The fold's keys are the starting keys plus the named addresses, with last-write-wins values. |
| EligibilityMap.TrueIffLastTrue | components/NavigationPanel.tsx:145-150 | An address maps to `true` exactly when its last pair says `true`. An address no pair names is absent. |
| EligibilityMap.UniformVerdict | components/NavigationPanel.tsx:145-150 | If every pair for an address carries the same verdict, the table holds that verdict. |
| Conversations.Keep | components/NavigationPanel.tsx:171 | The `filter` result is an order-preserving subsequence whose every conversation has an eligible peer. |
| Conversations.Eligible | components/NavigationPanel.tsx:171 | An absent address reads as undefined and is not eligible. A present address is eligible exactly when it maps to true. |
| Conversations.KeepCounts | components/NavigationPanel.tsx:171 | Filtering keeps every copy of a conversation whose peer is eligible and no copy of any other. |
| Conversations.Shown | components/NavigationPanel.tsx:171 | The identity when filter is off. When filter is on, an order-preserving subsequence that holds every copy of each conversation whose peer maps to true and no copy of any other. |
| Conversations.KeepAll | components/NavigationPanel.tsx:171 | If every peer is eligible, nothing is dropped. |
| Conversations.KeepNone | components/NavigationPanel.tsx:171 | If no peer is eligible, the result is empty. |
| Conversations.KeepIdempotent | components/NavigationPanel.tsx:171 | Filtering twice with one table is filtering once. |
| Batch.Peers | components/NavigationPanel.tsx:81 | Has the same length as the conversations, and entry i is conversation i's peer address. |
| Batch.PathFor | components/NavigationPanel.tsx:101-104 | Each evaluation's path starts with "/" and has 1 to 27 characters. |
| Batch.Runs | components/NavigationPanel.tsx:135 | There is one evaluation per peer, in order. Run i is the per-copy evaluation of peer i on the path drawn from draws 2i and 2i+1. |
| Batch.Pairs | components/NavigationPanel.tsx:136 | `Promise.all` keeps one pair per evaluation, in order. |
| Batch.Effect | components/NavigationPanel.tsx:84-139 | Filter off: the state is unchanged and there are no authority calls. Filter on: pair i is the evaluation of conversation i's peer on path i, and call list i is that evaluation's calls. |
| Batch.Panel | components/NavigationPanel.tsx:145-171 | Per-copy pipeline. With filter off, the panel lists the conversations unchanged. With filter on, it lists an order-preserving subsequence of them. |
| Batch.PanelShowsLastVerdict | components/NavigationPanel.tsx:145-171 | Per-copy pipeline. With filter on, every copy of a conversation is listed when the last pair for its peer is true, and no copy otherwise. An absent peer is dropped. |
| Batch.TokenRequestsNameOwnPeer | components/NavigationPanel.tsx:97-135 | Every token request of the batch names the peer being evaluated. This is the corrected behaviour for the finding below. |
| Batch.AllVerifiedShowsAll | components/NavigationPanel.tsx:171 | If every evaluation verifies, the panel lists every conversation. |
| Batch.NoneVerifiedShowsNone | components/NavigationPanel.tsx:171 | If no evaluation verifies, the panel lists nothing. |
| Batch.UniformPairs | components/NavigationPanel.tsx:145-171 | If the pairs name the peers in order and all carry one verdict, the filter keeps every conversation or none. |
| Batch.EmptyTemplateShowsNone | components/NavigationPanel.tsx:97-132 | An empty condition list hides every conversation and makes no authority call. |
| SharedTemplate.FanOutInPlace | components/NavigationPanel.tsx:97-99 | Models the in-place binding of the shared list by every peer in turn. Its length is unchanged, and it can be bound exactly when the template can. |
| SharedTemplate.RunAsWritten | components/NavigationPanel.tsx:95-133 | As-written evaluation of peer i. Calls go save, then token, then verify, each exactly when the previous one succeeded. Both requests carry the evaluation's descriptor, the chain and the authSig. Registration is assumed to read the list right after peer i's write, so it carries the template bound to peer i, with every other clause, parameter and field as authored. The token request carries the list as the whole fan-out left it, so it names the last peer. The verdict is verify's answer on the issued token, and false otherwise. |
| SharedTemplate.RunsAsWritten | components/NavigationPanel.tsx:135 | As written, run i is the as-written evaluation of peer i on path i. |
| SharedTemplate.PanelAsWritten | components/NavigationPanel.tsx:145-171 | As written, the panel lists an order-preserving subsequence of the conversations. |
| SharedTemplate.PanelAsWrittenShowsLastVerdict | components/NavigationPanel.tsx:145-171 | As written, every copy of a conversation is listed when its peer's last as-written pair is true, and no copy otherwise. |
| SharedTemplate.BindAfterFanOut | components/NavigationPanel.tsx:95-99 | The in-place fan-out changes only the subject slot. Binding an address afterwards gives what binding it into the authored template gives. |
| SharedTemplate.LastPeerAgrees | components/NavigationPanel.tsx:97-133 | The last peer's as-written evaluation equals its per-copy evaluation: nothing is written after its own binding. |
| SharedTemplate.FanOutLeavesLastPeer | components/NavigationPanel.tsx:97-99 | After every peer has bound in place, the shared list is the template bound to the last peer, and its subject slot holds the last peer. |
| SharedTemplate.TwoPeersCounterexample | components/NavigationPanel.tsx:97-124 | For peers "0xA" and "0xB" and a one-clause `balanceOf` template, the as-written token request made while evaluating "0xA" names "0xB". The per-copy token request names "0xA". |
| Scenarios.OnlyGrantedPeerShown | components/NavigationPanel.tsx:95-171 | Per-copy pipeline. The conversations are "0xA" and "0xB", and the authority grants only "0xA". The panel lists exactly the "0xA" conversation. |
| Scenarios.AsWrittenShowsNone | components/NavigationPanel.tsx:95-171 | The same scenario as written: both token requests name "0xB", so the panel lists nothing. |
| Scenarios.DuplicatePeerLastWins | components/NavigationPanel.tsx:147-149 | A peer that appears twice ends up with the verdict of its later pair. |

## Left out

- Evaluator.Run: binds a fresh copy of the condition list for each evaluation. As written, the list is shared and mutated in place, so the token requests differ. That behaviour is modelled by `SharedTemplate.RunAsWritten` and described under Findings.
- SharedTemplate.RunAsWritten: when the SDK's `saveSigningCondition` reads the shared list is not visible from this code. The model assumes it reads the list at call time, right after peer i's write, so registration names peer i. If the SDK reads it after its own first `await`, registration names the last peer too. The token request does not depend on this assumption.
- Conditions.Bind: the list is taken as present. An absent `condition` or `accessControlConditions` faults at line 97 or 99, and the catch turns that into `[address, false]`, exactly as for an empty list. The model has no separate value for it.
- React rendering and state: the wallet-less message, the connect button, the loaders, the empty-list message and `useState`/`useEffect` scheduling. They are presentation. `Batch.Panel` is the list once the effect has finished.
- The `loading` flag, including an exception from `connect` or `checkAndSignAuthMessage`. Such an exception is not caught and leaves `loading` true. It is asynchronous UI state, so the single `authSig` is an input.
- The Lit SDK calls themselves, including JWT verification (RFC 7519). They are remote, foreign code, represented by `Authority.Oracle`.
- The randomness of `Math.random`. The renderings are inputs, and path uniqueness is probabilistic, so it is not stated.
- `Promise.all` interleaving. The batch is a sequential map. The one consequence of its ordering that changes results is modelled in `SharedTemplate`.
- Effect staleness: the effect depends only on `filter` and `condition`, so a later change to `conversations` keeps old pairs. This is React scheduling.
- Object-key special cases such as `"__proto__"` as an address are not modelled. The table is a plain map from string to bool.
- The `console.log` calls are diagnostics only.
- components/LitShareModal.tsx: a UI wrapper that forwards the picker widget's output to a callback.
- Resources.Substring: indices are naturals. JavaScript's clamping of negative or NaN arguments to 0 is not modelled, because the only call passes 2 and 15.

## Findings

| source | as written | input that shows it | evidently intended | confidence | as-written member | corrected member |
|---|---|---|---|---|---|---|
| components/NavigationPanel.tsx:97-124 | `accessControlConditions` aliases the shared template. Each evaluation writes its peer into it during `peers.map`. Every `getSignedToken` runs after an `await`, so every token is requested for the last peer's address. | Conversations with peers "0xA" then "0xB" and template `[{method: "balanceOf", parameters: [":userAddress"]}]`: the token request made for "0xA" names "0xB". With an authority that grants only "0xA", the panel lists nothing (`Scenarios.AsWrittenShowsNone`) instead of the "0xA" conversation (`Scenarios.OnlyGrantedPeerShown`). | Each evaluation binds its own copy, so its requests name its own peer, and the template is left as authored. | high for the token request, not executed | SharedTemplate.TwoPeersCounterexample | Batch.TokenRequestsNameOwnPeer |

=== FILE: authority.dfy ===
/** The signing authority as the component sees it: three remote operations of
    the Lit SDK (components/NavigationPanel.tsx, lines 113-126), each of which
    may fail.  Their behaviour is not visible here, so the model takes them as
    arbitrary total functions. */
module Authority {
  import opened Results
  import opened Conditions
  import opened Resources

  /** The argument object shared by `saveSigningCondition` and `getSignedToken`. */
  datatype Request = Request(
    conditions: seq<Clause>,
    chain: string,
    authSig: string,
    resourceId: ResourceId)

  /** `save` registers the condition for the resource, `token` issues a JWT for
      it and `verify` checks a JWT, returning its `verified` claim. */
  datatype Oracle = Oracle(
    save: Request -> Result<()>,
    token: Request -> Result<string>,
    verify: string -> Result<bool>)

  /** One call the component makes on the authority, with its argument. */
  datatype Call =
    | SaveCondition(request: Request)
    | GetToken(request: Request)
    | VerifyToken(jwt: string)
}

=== FILE: batch.dfy ===
/** The batch: `peers`, `promises`, the `filterMessages` effect and the list
    the panel finally shows (components/NavigationPanel.tsx, lines 81-143 and
    145-171), with the concurrent `Promise.all` taken as a sequential map. */
module Batch {
  import opened Results
  import opened Conditions
  import opened Resources
  import opened Authority
  import opened Evaluator
  import opened EligibilityMap
  import opened Conversations

  const Chain: string := "rinkeby"

  /** `conversations.map(conversation => conversation.peerAddress)`. */
  function Peers(conversations: seq<Conversation>): (r: seq<string>)
    ensures |r| == |conversations|
    ensures forall i :: 0 <= i < |r| ==> r[i] == conversations[i].peerAddress
  {
    seq(|conversations|, i requires 0 <= i < |conversations| => conversations[i].peerAddress)
  }

  /** The path peer `i` draws.  `random(n)` is the rendering
      `Math.random().toString(36)` of the n-th random number; each evaluation
      draws two, and all evaluations draw theirs during `peers.map`, in peer
      order, before any of them awaits. */
  function PathFor(random: nat -> string, i: nat): (r: string)
    ensures 1 <= |r| <= 27 && r[0] == '/'
  {
    RandomPath(random(2 * i), random(2 * i + 1))
  }

  /** One evaluation per peer, in peer order. */
  function Runs(template: seq<Clause>, peers: seq<string>, authSig: string,
                random: nat -> string, oracle: Oracle): (r: seq<PeerRun>)
    ensures |r| == |peers|
    ensures forall i :: 0 <= i < |r| ==> r[i].result.address == peers[i]
    // run i evaluates peer i on the path drawn from draws 2i and 2i+1
    ensures forall i :: 0 <= i < |r| ==>
              r[i] == Run(template, peers[i], Chain, authSig, PathFor(random, i), oracle)
  {
    seq(|peers|, i requires 0 <= i < |peers| =>
      Run(template, peers[i], Chain, authSig, PathFor(random, i), oracle))
  }

  /** `await Promise.all(peers.map(getFiltered))`: the pairs, in peer order. */
  function Pairs(runs: seq<PeerRun>): (r: seq<Eligibility>)
    ensures |r| == |runs|
    ensures forall i :: 0 <= i < |r| ==> r[i] == runs[i].result
  {
    seq(|runs|, i requires 0 <= i < |runs| => runs[i].result)
  }

  /** What one run of the effect leaves behind: the `filtered` state and the
      calls each evaluation made on the authority, one entry per evaluation. */
  datatype EffectRun = EffectRun(filtered: Option<seq<Eligibility>>, calls: seq<seq<Call>>)

  /** `filterMessages`: nothing when filtering is off (the state keeps its
      previous value), otherwise one evaluation per conversation under the
      batch's single `authSig`. */
  function Effect(previous: Option<seq<Eligibility>>, filter: bool, conversations: seq<Conversation>,
                  template: seq<Clause>, authSig: string, random: nat -> string, oracle: Oracle)
    : (r: EffectRun)
    ensures !filter ==> r.filtered == previous && r.calls == []
    ensures filter ==> r.filtered.Some? && |r.filtered.value| == |conversations| == |r.calls|
    ensures filter ==> forall i :: 0 <= i < |conversations| ==>
              r.filtered.value[i].address == conversations[i].peerAddress
    // pair i and call list i come from evaluating conversation i's peer
    ensures filter ==> forall i :: 0 <= i < |conversations| ==>
              && r.filtered.value[i] == Evaluate(template, conversations[i].peerAddress, Chain,
                                                 authSig, PathFor(random, i), oracle)
              && r.calls[i] == Run(template, conversations[i].peerAddress, Chain,
                                   authSig, PathFor(random, i), oracle).calls
  {
    if !filter then EffectRun(previous, [])
    else
      var runs := Runs(template, Peers(conversations), authSig, random, oracle);
      EffectRun(Some(Pairs(runs)), seq(|runs|, i requires 0 <= i < |runs| => runs[i].calls))
  }

  /** The conversations the panel lists once the effect has completed. */
  function Panel(previous: Option<seq<Eligibility>>, filter: bool, conversations: seq<Conversation>,
                 template: seq<Clause>, authSig: string, random: nat -> string, oracle: Oracle)
    : (r: seq<Conversation>)
    ensures !filter ==> r == conversations
    ensures filter ==> IsSubsequence(r, conversations)
  {
    var effect := Effect(previous, filter, conversations, template, authSig, random, oracle);
    Shown(conversations, filter, Table(effect.filtered))
  }

  /** With filtering on, every copy of a conversation is listed when the last
      pair the batch produced for its peer says `true`, and no copy otherwise. */
  lemma PanelShowsLastVerdict(previous: Option<seq<Eligibility>>, conversations: seq<Conversation>,
                              template: seq<Clause>, authSig: string, random: nat -> string, oracle: Oracle)
    ensures var pairs := Effect(previous, true, conversations, template, authSig, random, oracle).filtered.value;
            var shown := Panel(previous, true, conversations, template, authSig, random, oracle);
            forall c :: multiset(shown)[c] ==
              if LastVerdict(pairs, c.peerAddress) == Some(true) then multiset(conversations)[c] else 0
  {
    var pairs := Effect(previous, true, conversations, template, authSig, random, oracle).filtered.value;
    forall c: Conversation
      ensures Eligible(Table(Some(pairs)), c.peerAddress) <==> LastVerdict(pairs, c.peerAddress) == Some(true)
    {
      TrueIffLastTrue(pairs, c.peerAddress);
    }
  }

  /** Every token the batch requests is for a condition naming the peer it
      evaluates: each evaluation binds its own copy of the template. */
  lemma TokenRequestsNameOwnPeer(template: seq<Clause>, peers: seq<string>, authSig: string,
                                 random: nat -> string, oracle: Oracle)
    ensures var runs := Runs(template, peers, authSig, random, oracle);
            forall i :: 0 <= i < |runs| && |runs[i].calls| >= 2 ==>
              Subject(runs[i].calls[1].request.conditions) == Some(peers[i])
  {
    var runs := Runs(template, peers, authSig, random, oracle);
    forall i | 0 <= i < |runs| && |runs[i].calls| >= 2
      ensures Subject(runs[i].calls[1].request.conditions) == Some(peers[i])
    {
      TokenRequestNamesAddress(template, peers[i], Chain, authSig, PathFor(random, i), oracle);
    }
  }

  /** Pairs naming the conversations' peers in order, all with one verdict:
      the filter keeps everything or nothing. */
  lemma UniformPairs(pairs: seq<Eligibility>, conversations: seq<Conversation>, verdict: bool)
    requires |pairs| == |conversations|
    requires forall i :: 0 <= i < |pairs| ==>
               pairs[i].address == conversations[i].peerAddress && pairs[i].verified == verdict
    ensures Shown(conversations, true, Table(Some(pairs))) == if verdict then conversations else []
  {
    var table := Table(Some(pairs));
    forall i | 0 <= i < |conversations|
      ensures Eligible(table, conversations[i].peerAddress) == verdict
    {
      UniformVerdict(pairs, conversations[i].peerAddress, verdict);
    }
    if verdict { KeepAll(conversations, table); } else { KeepNone(conversations, table); }
  }

  /** Every peer's verdict is `true`: the panel lists every conversation. */
  lemma AllVerifiedShowsAll(previous: Option<seq<Eligibility>>, conversations: seq<Conversation>,
                            template: seq<Clause>, authSig: string, random: nat -> string, oracle: Oracle)
    requires forall i :: 0 <= i < |conversations| ==>
               Evaluate(template, conversations[i].peerAddress, Chain, authSig, PathFor(random, i), oracle).verified
    ensures Panel(previous, true, conversations, template, authSig, random, oracle) == conversations
  {
    var pairs := Effect(previous, true, conversations, template, authSig, random, oracle).filtered.value;
    assert forall j :: 0 <= j < |pairs| ==> pairs[j].verified == true;
    UniformPairs(pairs, conversations, true);
  }

  /** No peer's verdict is `true`: the panel lists nothing. */
  lemma NoneVerifiedShowsNone(previous: Option<seq<Eligibility>>, conversations: seq<Conversation>,
                              template: seq<Clause>, authSig: string, random: nat -> string, oracle: Oracle)
    requires forall i :: 0 <= i < |conversations| ==>
               !Evaluate(template, conversations[i].peerAddress, Chain, authSig, PathFor(random, i), oracle).verified
    ensures Panel(previous, true, conversations, template, authSig, random, oracle) == []
  {
    var pairs := Effect(previous, true, conversations, template, authSig, random, oracle).filtered.value;
    assert forall j :: 0 <= j < |pairs| ==> pairs[j].verified == false;
    UniformPairs(pairs, conversations, false);
  }

  /** An empty condition list hides every conversation and makes no call on
      the authority: binding faults before anything is sent. */
  lemma EmptyTemplateShowsNone(previous: Option<seq<Eligibility>>, conversations: seq<Conversation>,
                               authSig: string, random: nat -> string, oracle: Oracle)
    ensures Panel(previous, true, conversations, [], authSig, random, oracle) == []
    ensures forall i :: 0 <= i < |conversations| ==>
              Effect(previous, true, conversations, [], authSig, random, oracle).calls[i] == []
  {
    NoneVerifiedShowsNone(previous, conversations, [], authSig, random, oracle);
  }
}

=== FILE: conditions.dfy ===
/** Access-control conditions and the binder that writes a peer's address
    into slot 0 of clause 0 (components/NavigationPanel.tsx, lines 97-99). */
module Conditions {
  import opened Results

  /** One entry of an access-control condition list.  A `Condition` carries the
      positional `parameters` the picker emitted and every other field of the
      clause (contract address, method, return-value test, ...) as `fields`; an
      `Operator` entry ("and"/"or") has no parameter list at all. */
  datatype Clause =
    | Condition(parameters: seq<string>, fields: map<string, string>)
    | Operator(name: string)

  /** `conds[0].parameters[0] = address` on a copy of `conds`.

      The assignment faults exactly when `conds[0]` is undefined (an empty list)
      or has no parameter list; on an empty parameter list JavaScript extends the
      array, so the bound list is then `[address]`. */
  function Bind(conds: seq<Clause>, address: string): (r: Result<seq<Clause>>)
    ensures r.Err? <==> |conds| == 0 || conds[0].Operator?
    ensures |conds| == 0 ==> r == Err(NoClause)
    ensures r.Ok? ==> |r.value| == |conds|
    ensures r.Ok? ==> r.value[0].Condition? && |r.value[0].parameters| > 0
                      && r.value[0].parameters[0] == address
    // clause 0 keeps its other fields and every other parameter
    ensures r.Ok? ==> r.value[0].fields == conds[0].fields
    ensures r.Ok? ==> |r.value[0].parameters| == if |conds[0].parameters| == 0 then 1 else |conds[0].parameters|
    ensures r.Ok? ==> forall k :: 1 <= k < |conds[0].parameters| ==>
                        r.value[0].parameters[k] == conds[0].parameters[k]
    // every other clause is unchanged
    ensures r.Ok? ==> forall i :: 1 <= i < |conds| ==> r.value[i] == conds[i]
  {
    if |conds| == 0 then Err(NoClause)
    else match conds[0]
      case Operator(_) => Err(NoParameterList)
      case Condition(ps, fs) =>
        var ps' := if |ps| == 0 then [address] else [address] + ps[1..];
        Ok([Condition(ps', fs)] + conds[1..])
  }

  /** The address currently held in the subject slot, when there is one. */
  function Subject(conds: seq<Clause>): (r: Option<string>)
    ensures r.Some? <==> |conds| > 0 && conds[0].Condition? && |conds[0].parameters| > 0
  {
    if |conds| > 0 && conds[0].Condition? && |conds[0].parameters| > 0
    then Some(conds[0].parameters[0]) else None
  }

  /** Reading the subject slot back after binding yields the bound address. */
  lemma BindThenSubject(conds: seq<Clause>, address: string)
    requires Bind(conds, address).Ok?
    ensures Subject(Bind(conds, address).value) == Some(address)
  {
  }

  /** Binding the address a template already holds gives the template back. */
  lemma BindSubjectRoundTrip(conds: seq<Clause>)
    requires Subject(conds).Some?
    ensures Bind(conds, Subject(conds).value) == Ok(conds)
  {
    var ps := conds[0].parameters;
    assert [ps[0]] + ps[1..] == ps;
    assert [conds[0]] + conds[1..] == conds;
  }

  /** Binding twice leaves only the second address: the first write is lost. */
  lemma BindTwice(conds: seq<Clause>, first: string, second: string)
    requires Bind(conds, first).Ok?
    ensures Bind(Bind(conds, first).value, second) == Bind(conds, second)
  {
    var once := Bind(conds, first).value;
    var twice := Bind(once, second).value;
    var direct := Bind(conds, second).value;
    assert twice[0] == direct[0];
    assert twice == direct;
  }
}

=== FILE: conversations.dfy ===
/** The `filteredConversations` expression (components/NavigationPanel.tsx,
    line 171): identity when filtering is off, otherwise the conversations
    whose peer the table maps to `true`. */
module Conversations {

  /** A conversation as this component reads it: only the peer address. */
  datatype Conversation = Conversation(peerAddress: string)

  /** `table[address]` is truthy: present and mapped to `true`.  An absent
      address reads as `undefined`, which is falsy. */
  predicate Eligible(table: map<string, bool>, address: string): (b: bool)
    ensures address !in table ==> !b
    ensures address in table ==> (b <==> table[address])
  {
    address in table && table[address]
  }

  /** `sub` can be obtained from `whole` by deleting elements. */
  ghost predicate IsSubsequence<T>(sub: seq<T>, whole: seq<T>)
    decreases |whole|
  {
    if |sub| == 0 then true
    else if |whole| == 0 then false
    else (sub[0] == whole[0] && IsSubsequence(sub[1..], whole[1..]))
         || IsSubsequence(sub, whole[1..])
  }

  /** `conversations.filter(c => table[c.peerAddress])`. */
  function Keep(conversations: seq<Conversation>, table: map<string, bool>): (r: seq<Conversation>)
    ensures IsSubsequence(r, conversations)
    ensures forall i :: 0 <= i < |r| ==> Eligible(table, r[i].peerAddress)
    decreases |conversations|
  {
    if |conversations| == 0 then []
    else
      var rest := Keep(conversations[1..], table);
      if Eligible(table, conversations[0].peerAddress) then
        assert ([conversations[0]] + rest)[1..] == rest;
        [conversations[0]] + rest
      else rest
  }

  /** Filtering keeps every copy of an eligible conversation and no copy of
      any other: it is a sub-multiset selected by eligibility alone. */
  lemma {:induction false} KeepCounts(conversations: seq<Conversation>, table: map<string, bool>)
    ensures forall c :: multiset(Keep(conversations, table))[c] ==
              if Eligible(table, c.peerAddress) then multiset(conversations)[c] else 0
    decreases |conversations|
  {
    if |conversations| > 0 {
      KeepCounts(conversations[1..], table);
      assert conversations == [conversations[0]] + conversations[1..];
    }
  }

  /** The list the panel shows once the table is built. */
  function Shown(conversations: seq<Conversation>, filter: bool, table: map<string, bool>)
    : (r: seq<Conversation>)
    ensures !filter ==> r == conversations
    ensures filter ==> IsSubsequence(r, conversations)
    ensures filter ==> forall c :: c in r <==> c in conversations && Eligible(table, c.peerAddress)
    ensures filter ==> forall c :: multiset(r)[c] ==
                                   if Eligible(table, c.peerAddress) then multiset(conversations)[c] else 0
  {
    if filter then
      var r := Keep(conversations, table);
      KeepCounts(conversations, table);
      assert forall c :: c in r <==> multiset(r)[c] > 0;
      r
    else conversations
  }

  /** When every peer is eligible, filtering keeps the whole list. */
  lemma {:induction false} KeepAll(conversations: seq<Conversation>, table: map<string, bool>)
    requires forall i :: 0 <= i < |conversations| ==> Eligible(table, conversations[i].peerAddress)
    ensures Keep(conversations, table) == conversations
    decreases |conversations|
  {
    if |conversations| > 0 {
      KeepAll(conversations[1..], table);
      assert conversations == [conversations[0]] + conversations[1..];
    }
  }

  /** When no peer is eligible, filtering keeps nothing. */
  lemma {:induction false} KeepNone(conversations: seq<Conversation>, table: map<string, bool>)
    requires forall i :: 0 <= i < |conversations| ==> !Eligible(table, conversations[i].peerAddress)
    ensures Keep(conversations, table) == []
    decreases |conversations|
  {
    if |conversations| > 0 {
      KeepNone(conversations[1..], table);
    }
  }

  /** Filtering twice with the same table is filtering once. */
  lemma KeepIdempotent(conversations: seq<Conversation>, table: map<string, bool>)
    ensures Keep(Keep(conversations, table), table) == Keep(conversations, table)
  {
    KeepAll(Keep(conversations, table), table);
  }
}

=== FILE: eligibility.dfy ===
/** `filteredObjects`: the address-to-verdict table built from the batch's
    pairs (components/NavigationPanel.tsx, lines 145-150). */
module EligibilityMap {
  import opened Results
  import opened Evaluator

  /** The verdict of the LAST pair naming `address`, if any pair does.  This is
      the reference against which the fold below is checked. */
  function LastVerdict(pairs: seq<Eligibility>, address: string): (r: Option<bool>)
    ensures r.None? <==> forall j :: 0 <= j < |pairs| ==> pairs[j].address != address
    ensures r.Some? ==> exists j :: 0 <= j < |pairs| && pairs[j].address == address
                         && pairs[j].verified == r.value
                         && forall k :: j < k < |pairs| ==> pairs[k].address != address
    decreases |pairs|
  {
    if |pairs| == 0 then None
    else
      var last := pairs[|pairs| - 1];
      if last.address == address then Some(last.verified)
      else LastVerdict(pairs[..|pairs| - 1], address)
  }

  /** The set of addresses the pairs name. */
  function Addresses(pairs: seq<Eligibility>): (r: set<string>)
    ensures forall a :: a in r <==> exists j :: 0 <= j < |pairs| && pairs[j].address == a
  {
    set j | 0 <= j < |pairs| :: pairs[j].address
  }

  /** `pairs.forEach(([address, verified]) => table[address] = verified)`,
      starting from `table`. */
  function Fold(table: map<string, bool>, pairs: seq<Eligibility>): (r: map<string, bool>)
    // no entry is ever removed ...
    ensures table.Keys <= r.Keys
    // ... and the last pair's write is the one that stays
    ensures |pairs| > 0 ==> pairs[|pairs| - 1].address in r
                            && r[pairs[|pairs| - 1].address] == pairs[|pairs| - 1].verified
    decreases |pairs|
  {
    if |pairs| == 0 then table
    else Fold(table[pairs[0].address := pairs[0].verified], pairs[1..])
  }

  /** The table the component builds from its `filtered` state: empty when the
      state is unset or empty, otherwise the fold of the pairs into `{}`. */
  function Table(filtered: Option<seq<Eligibility>>): (r: map<string, bool>)
    ensures filtered.None? ==> r == map[]
    ensures filtered.Some? ==> r.Keys == Addresses(filtered.value)
    ensures filtered.Some? ==> forall a :: a in r ==> LastVerdict(filtered.value, a) == Some(r[a])
  {
    match filtered
    case None => map[]
    case Some(pairs) =>
      if |pairs| == 0 then map[]
      else
        FoldIsLastWrite(map[], pairs);
        Fold(map[], pairs)
  }

  /** The table maps an address to `true` exactly when its last verdict is
      `true`; an address no pair names is absent. */
  lemma TrueIffLastTrue(pairs: seq<Eligibility>, address: string)
    ensures (address in Table(Some(pairs)) && Table(Some(pairs))[address])
            <==> LastVerdict(pairs, address) == Some(true)
  {
    if LastVerdict(pairs, address).Some? {
      var j :| 0 <= j < |pairs| && pairs[j].address == address;
    }
  }

  /** When every pair naming `address` carries the same verdict, the table
      holds that verdict for it. */
  lemma UniformVerdict(pairs: seq<Eligibility>, address: string, verdict: bool)
    requires exists j :: 0 <= j < |pairs| && pairs[j].address == address
    requires forall j :: 0 <= j < |pairs| && pairs[j].address == address ==> pairs[j].verified == verdict
    ensures address in Table(Some(pairs)) && Table(Some(pairs))[address] == verdict
  {
    var j :| 0 <= j < |pairs| && pairs[j].address == address
             && pairs[j].verified == LastVerdict(pairs, address).value;
  }

  /** Looking one more pair back: the last verdict of a sequence whose first
      pair is dropped, unless only the first pair names the address. */
  lemma {:induction false} LastVerdictFront(pairs: seq<Eligibility>, address: string)
    requires |pairs| > 0
    ensures LastVerdict(pairs, address) ==
            if LastVerdict(pairs[1..], address).Some? then LastVerdict(pairs[1..], address)
            else if pairs[0].address == address then Some(pairs[0].verified)
            else None
    decreases |pairs|
  {
    var n := |pairs|;
    if n == 1 {
      assert pairs[1..] == [];
    } else if pairs[n - 1].address == address {
      assert pairs[1..][n - 2] == pairs[n - 1];
    } else {
      LastVerdictFront(pairs[..n - 1], address);
      assert pairs[..n - 1][1..] == pairs[1..][..n - 2];
      assert pairs[1..][n - 2] == pairs[n - 1];
    }
  }

  /** Folding overwrites, seen from one address: it ends with its last
      verdict if any pair names it, and with its starting entry otherwise. */
  lemma {:induction false} FoldAt(table: map<string, bool>, pairs: seq<Eligibility>, a: string)
    ensures a in Fold(table, pairs) <==> a in table || LastVerdict(pairs, a).Some?
    ensures LastVerdict(pairs, a).Some? ==> Fold(table, pairs)[a] == LastVerdict(pairs, a).value
    ensures a in table && LastVerdict(pairs, a).None? ==> Fold(table, pairs)[a] == table[a]
    decreases |pairs|
  {
    if |pairs| > 0 {
      FoldAt(table[pairs[0].address := pairs[0].verified], pairs[1..], a);
      LastVerdictFront(pairs, a);
    }
  }

  /** Folding overwrites: each address the pairs name ends with its last
      verdict, every other entry of the starting table is kept. */
  lemma FoldIsLastWrite(table: map<string, bool>, pairs: seq<Eligibility>)
    ensures Fold(table, pairs).Keys == table.Keys + Addresses(pairs)
    ensures forall a :: LastVerdict(pairs, a).Some? ==>
              a in Fold(table, pairs) && Fold(table, pairs)[a] == LastVerdict(pairs, a).value
    ensures forall a :: a in table && LastVerdict(pairs, a).None? ==>
              a in Fold(table, pairs) && Fold(table, pairs)[a] == table[a]
  {
    forall a
      ensures a in Fold(table, pairs) <==> a in table || LastVerdict(pairs, a).Some?
      ensures LastVerdict(pairs, a).Some? ==> Fold(table, pairs)[a] == LastVerdict(pairs, a).value
      ensures a in table && LastVerdict(pairs, a).None? ==> Fold(table, pairs)[a] == table[a]
    {
      FoldAt(table, pairs, a);
    }
  }
}

=== FILE: evaluator.dfy ===
/** `getFiltered`: the evaluation of one peer address
    (components/NavigationPanel.tsx, lines 95-133). */
module Evaluator {
  import opened Results
  import opened Conditions
  import opened Resources
  import opened Authority

  /** The pair the evaluation resolves to, `[address, verified]`. */
  datatype Eligibility = Eligibility(address: string, verified: bool)

  /** The outcome of one evaluation together with the authority calls it made,
      in the order it made them. */
  datatype PeerRun = PeerRun(result: Eligibility, calls: seq<Call>)

  /** Register `save`, request a token for `token` and verify it, each step
      only when the previous one succeeded; a failing step ends the run with
      `verified == false`.  The component passes the same request twice. */
  function Protocol(address: string, save: Request, token: Request, oracle: Oracle): (r: PeerRun)
    ensures r.result.address == address
    ensures 1 <= |r.calls| <= 3 && r.calls[0] == SaveCondition(save)
    // the token is requested exactly when registration succeeded ...
    ensures |r.calls| >= 2 <==> oracle.save(save).Ok?
    ensures |r.calls| >= 2 ==> r.calls[1] == GetToken(token)
    // ... and verified exactly when a token was issued
    ensures |r.calls| == 3 <==> oracle.save(save).Ok? && oracle.token(token).Ok?
    ensures |r.calls| == 3 ==> r.calls[2] == VerifyToken(oracle.token(token).value)
    // the verdict is verify's answer when there is one, and false otherwise
    ensures |r.calls| == 3 && oracle.verify(r.calls[2].jwt).Ok? ==>
              r.result.verified == oracle.verify(r.calls[2].jwt).value
    ensures r.result.verified ==> |r.calls| == 3 && oracle.verify(r.calls[2].jwt) == Ok(true)
  {
    var saved := [SaveCondition(save)];
    match oracle.save(save)
    case Err(_) => PeerRun(Eligibility(address, false), saved)
    case Ok(_) =>
      match oracle.token(token)
      case Err(_) => PeerRun(Eligibility(address, false), saved + [GetToken(token)])
      case Ok(jwt) =>
        var calls := saved + [GetToken(token), VerifyToken(jwt)];
        match oracle.verify(jwt)
        case Err(_) => PeerRun(Eligibility(address, false), calls)
        case Ok(verified) => PeerRun(Eligibility(address, verified), calls)
  }

  /** Bind the address into a copy of the template, register the bound
      condition for a fresh resource, request a token and verify it.  Every
      fault along the way is caught and turns into `verified == false`.
      `path` is the random path this evaluation drew. */
  function Run(template: seq<Clause>, address: string, chain: string, authSig: string,
               path: string, oracle: Oracle): (r: PeerRun)
    // the pair always names the evaluated address: nothing propagates
    ensures r.result.address == address
    // a binding fault happens before any call on the authority
    ensures r.calls == [] <==> Bind(template, address).Err?
    ensures Bind(template, address).Err? ==> !r.result.verified
    // the calls follow the fixed protocol, each one exactly when the previous succeeded
    ensures |r.calls| <= 3
    ensures |r.calls| >= 1 ==> r.calls[0].SaveCondition?
    ensures |r.calls| >= 2 ==> r.calls[1].GetToken? && r.calls[1].request == r.calls[0].request
                               && oracle.save(r.calls[0].request).Ok?
    ensures |r.calls| >= 1 && oracle.save(r.calls[0].request).Ok? ==> |r.calls| >= 2
    ensures |r.calls| == 3 ==> r.calls[2].VerifyToken?
                               && oracle.token(r.calls[1].request) == Ok(r.calls[2].jwt)
    ensures |r.calls| >= 2 && oracle.token(r.calls[1].request).Ok? ==> |r.calls| == 3
    // every request carries the bound copy and a descriptor for `path`
    ensures forall c :: c in r.calls && !c.VerifyToken? ==>
              && Ok(c.request.conditions) == Bind(template, address)
              && c.request.resourceId == Resource(path)
              && c.request.chain == chain && c.request.authSig == authSig
    // the verdict is verify's answer on the issued token, false when there is none
    ensures |r.calls| == 3 && oracle.verify(r.calls[2].jwt).Ok? ==>
              r.result.verified == oracle.verify(r.calls[2].jwt).value
    ensures r.result.verified <==> |r.calls| == 3 && oracle.verify(r.calls[2].jwt) == Ok(true)
  {
    match Bind(template, address)
    case Err(_) => PeerRun(Eligibility(address, false), [])
    case Ok(bound) =>
      var request := Request(bound, chain, authSig, Resource(path));
      Protocol(address, request, request, oracle)
  }

  /** The pair `getFiltered(address)` resolves to: the evaluated address, with
      the verdict the authority gives for the request that binds it, or false
      when binding or any authority step fails. */
  function Evaluate(template: seq<Clause>, address: string, chain: string, authSig: string,
                    path: string, oracle: Oracle): (r: Eligibility)
    ensures r.address == address
    ensures Bind(template, address).Err? ==> !r.verified
    ensures Bind(template, address).Ok? ==>
              var request := Request(Bind(template, address).value, chain, authSig, Resource(path));
              && (oracle.save(request).Err? ==> !r.verified)
              && (oracle.save(request).Ok? && oracle.token(request).Err? ==> !r.verified)
              && (oracle.save(request).Ok? && oracle.token(request).Ok? ==>
                    (r.verified <==> oracle.verify(oracle.token(request).value) == Ok(true)))
  {
    Run(template, address, chain, authSig, path, oracle).result
  }

  /** The success direction: when every step succeeds, the pair carries the
      `verified` claim of the issued token. */
  lemma VerdictOnSuccess(template: seq<Clause>, address: string, chain: string, authSig: string,
                         path: string, oracle: Oracle, jwt: string, verified: bool)
    requires Bind(template, address).Ok?
    requires var request := Request(Bind(template, address).value, chain, authSig, Resource(path));
             oracle.save(request).Ok? && oracle.token(request) == Ok(jwt)
    requires oracle.verify(jwt) == Ok(verified)
    ensures Evaluate(template, address, chain, authSig, path, oracle) == Eligibility(address, verified)
  {
  }

  /** Whatever the authority answers, the token that is verified was issued for
      a condition naming the evaluated address: the binding is per copy. */
  lemma TokenRequestNamesAddress(template: seq<Clause>, address: string, chain: string,
                                 authSig: string, path: string, oracle: Oracle)
    requires |Run(template, address, chain, authSig, path, oracle).calls| >= 2
    ensures var token := Run(template, address, chain, authSig, path, oracle).calls[1];
            Subject(token.request.conditions) == Some(address)
  {
    BindThenSubject(template, address);
  }

  /** With an empty condition list every evaluation degrades to `false`
      without contacting the authority. */
  lemma EmptyTemplateNeverVerifies(address: string, chain: string, authSig: string,
                                   path: string, oracle: Oracle)
    ensures Run([], address, chain, authSig, path, oracle)
            == PeerRun(Eligibility(address, false), [])
  {
  }
}

=== FILE: resources.dfy ===
/** The resource descriptor each evaluation registers its condition against
    (components/NavigationPanel.tsx, lines 80 and 101-111). */
module Resources {

  const BaseUrl: string := "http://localhost:3000"

  datatype ResourceId = ResourceId(
    baseUrl: string,
    path: string,
    orgId: string,
    role: string,
    extraData: string)

  function Min(a: nat, b: nat): nat { if a <= b then a else b }

  /** JavaScript's `s.substring(start, end)` for non-negative indices: both
      indices are clamped to `|s|` and swapped when out of order. */
  function Substring(s: string, start: nat, end: nat): (r: string)
    // the piece is a slice that starts at the clamped lower index ...
    ensures var lo := Min(Min(start, end), |s|);
            r <= s[lo..]
    // ... and is as long as the clamped index range
    ensures |r| == Min(if start <= end then end else start, |s|) - Min(Min(start, end), |s|)
  {
    var lo := Min(Min(start, end), |s|);
    var hi := Min(if start <= end then end else start, |s|);
    s[lo..hi]
  }

  /** One random path piece: `Math.random().toString(36).substring(2, 15)`,
      given the rendering of the random number. */
  function Piece(rendering: string): (r: string)
    ensures |r| <= 13
    ensures |r| == Min(|rendering|, 15) - Min(2, |rendering|)
    ensures |rendering| >= 15 ==> |r| == 13
    ensures forall k :: 0 <= k < |r| ==> k + 2 < |rendering| && r[k] == rendering[k + 2]
  {
    Substring(rendering, 2, 15)
  }

  /** `"/" + piece + piece` from two random renderings. */
  function RandomPath(first: string, second: string): (r: string)
    ensures 1 <= |r| <= 27
    ensures r[0] == '/'
    ensures |r| == 1 + |Piece(first)| + |Piece(second)|
    ensures |first| >= 15 && |second| >= 15 ==> |r| == 27
    // after the "/", the characters of the first piece, then those of the second
    ensures forall k :: 1 <= k <= |Piece(first)| ==> r[k] == first[k + 1]
    ensures forall k :: 1 + |Piece(first)| <= k < |r| ==> r[k] == second[k + 1 - |Piece(first)|]
  {
    "/" + Piece(first) + Piece(second)
  }

  /** The descriptor for one evaluation. */
  function Resource(path: string): (r: ResourceId)
    ensures r.baseUrl == "http://localhost:3000"
    ensures r.path == path
    ensures r.orgId == "" && r.role == "" && r.extraData == ""
  {
    ResourceId(BaseUrl, path, "", "", "")
  }

  predicate IsBase36Digit(c: char) {
    ('0' <= c <= '9') || ('a' <= c <= 'z')
  }

  /** What `Number.prototype.toString(36)` yields for a number in [0, 1):
      "0" alone, or "0." followed by base-36 digits. */
  predicate IsBase36Fraction(s: string) {
    && |s| >= 1 && s[0] == '0'
    && (|s| == 1 || (|s| >= 3 && s[1] == '.'
                     && forall k :: 2 <= k < |s| ==> IsBase36Digit(s[k])))
  }

  /** Built from two base-36 renderings, the path is a single segment: its
      only '/' is the leading one and every other character is a digit. */
  lemma RandomPathIsOneSegment(first: string, second: string)
    requires IsBase36Fraction(first) && IsBase36Fraction(second)
    ensures var p := RandomPath(first, second);
            forall k :: 1 <= k < |p| ==> IsBase36Digit(p[k])
  {
    var a, b := Piece(first), Piece(second);
    var p := RandomPath(first, second);
    assert p == "/" + a + b;
    forall k | 1 <= k < |p|
      ensures IsBase36Digit(p[k])
    {
      if k <= |a| {
        assert p[k] == a[k - 1] == first[k + 1];
      } else {
        assert p[k] == b[k - 1 - |a|] == second[k + 1 - |a|];
      }
    }
  }
}

=== FILE: results.dfy ===
/** Failure-carrying results for the eligibility pipeline.

    The component catches every exception of a per-peer evaluation; the model
    makes each of those exceptions an explicit `Err` value instead. */
module Results {

  /** Why a step of the pipeline did not produce a value. */
  datatype Fault =
    | NoClause                  // `conds[0]` is undefined: the condition list is empty
    | NoParameterList           // `conds[0].parameters` is undefined: clause 0 is an operator
    | AuthorityError(reason: string)  // the signing authority rejected or could not be reached

  datatype Option<+T> = None | Some(value: T)

  datatype Result<+T> = Ok(value: T) | Err(fault: Fault) {

    /** The value, or `default` when there is none. */
    function GetOr(default: T): (r: T)
      ensures Ok? ==> r == value
      ensures Err? ==> r == default
    {
      match this
      case Ok(v) => v
      case Err(_) => default
    }
  }
}

=== FILE: scenarios.dfy ===
/** Concrete runs of the whole pipeline. */
module Scenarios {
  import opened Results
  import opened Conditions
  import opened Authority
  import opened Evaluator
  import opened Conversations
  import opened Batch
  import opened EligibilityMap
  import opened SharedTemplate

  /** An authority that registers everything and issues a token that verifies
      exactly when the bound subject is `eligible`. */
  function GateOn(eligible: string): (o: Oracle)
    ensures forall r :: o.save(r).Ok?
    ensures forall r :: o.token(r) == Ok(if Subject(r.conditions) == Some(eligible) then "granted" else "denied")
    ensures forall j :: o.verify(j) == Ok(j == "granted")
  {
    Oracle(
      (r: Request) => Ok(()),
      (r: Request) => Ok(if Subject(r.conditions) == Some(eligible) then "granted" else "denied"),
      (j: string) => Ok(j == "granted"))
  }

  /** Two conversations, the authority grants only "0xA": the panel lists only
      the conversation with "0xA". */
  lemma OnlyGrantedPeerShown(random: nat -> string)
    ensures var template := [Condition([":userAddress"], map["method" := "balanceOf"])];
            var conversations := [Conversation("0xA"), Conversation("0xB")];
            Panel(None, true, conversations, template, "sig", random, GateOn("0xA"))
            == [Conversation("0xA")]
  {
    var template := [Condition([":userAddress"], map["method" := "balanceOf"])];
    var conversations := [Conversation("0xA"), Conversation("0xB")];
    var oracle := GateOn("0xA");
    var pairs := [Eligibility("0xA", true), Eligibility("0xB", false)];
    var table := map["0xA" := true, "0xB" := false];
    GrantedPairs(random);
    GrantedTable();
    GrantedKept();
    assert Panel(None, true, conversations, template, "sig", random, oracle)
           == Keep(conversations, table);
  }

  /** The table of that scenario. */
  lemma GrantedTable()
    ensures Table(Some([Eligibility("0xA", true), Eligibility("0xB", false)]))
            == map["0xA" := true, "0xB" := false]
  {
    var pairs := [Eligibility("0xA", true), Eligibility("0xB", false)];
    assert Addresses(pairs) == {"0xA", "0xB"} by {
      assert pairs[0].address == "0xA" && pairs[1].address == "0xB";
    }
  }

  /** The filter of that scenario keeps only the granted conversation. */
  lemma GrantedKept()
    ensures Keep([Conversation("0xA"), Conversation("0xB")], map["0xA" := true, "0xB" := false])
            == [Conversation("0xA")]
  {
    var conversations := [Conversation("0xA"), Conversation("0xB")];
    assert conversations[1..] == [Conversation("0xB")];
    assert conversations[1..][1..] == [];
  }

  /** The pairs of that scenario: "0xA" verified, "0xB" not, in that order. */
  lemma GrantedPairs(random: nat -> string)
    ensures var template := [Condition([":userAddress"], map["method" := "balanceOf"])];
            var conversations := [Conversation("0xA"), Conversation("0xB")];
            Effect(None, true, conversations, template, "sig", random, GateOn("0xA")).filtered
            == Some([Eligibility("0xA", true), Eligibility("0xB", false)])
  {
    var template := [Condition([":userAddress"], map["method" := "balanceOf"])];
    var conversations := [Conversation("0xA"), Conversation("0xB")];
    var oracle := GateOn("0xA");
    var filtered := Effect(None, true, conversations, template, "sig", random, oracle).filtered.value;
    BindThenSubject(template, "0xA");
    BindThenSubject(template, "0xB");
    assert |filtered| == 2;
    assert filtered[0] == Evaluate(template, "0xA", Chain, "sig", PathFor(random, 0), oracle)
                       == Eligibility("0xA", true);
    assert filtered[1] == Evaluate(template, "0xB", Chain, "sig", PathFor(random, 1), oracle)
                       == Eligibility("0xB", false);
    assert filtered == [Eligibility("0xA", true), Eligibility("0xB", false)];
  }

  /** The same two conversations as written: both token requests name "0xB",
      so the authority denies both and the panel lists nothing. */
  lemma AsWrittenShowsNone(random: nat -> string)
    ensures var template := [Condition([":userAddress"], map["method" := "balanceOf"])];
            var conversations := [Conversation("0xA"), Conversation("0xB")];
            PanelAsWritten(conversations, template, "sig", random, GateOn("0xA")) == []
  {
    var template := [Condition([":userAddress"], map["method" := "balanceOf"])];
    var conversations := [Conversation("0xA"), Conversation("0xB")];
    var oracle := GateOn("0xA");
    var peers := Peers(conversations);
    assert peers == ["0xA", "0xB"];
    var pairs := Pairs(RunsAsWritten(template, peers, "sig", random, oracle));
    forall i | 0 <= i < 2
      ensures pairs[i].address == conversations[i].peerAddress && !pairs[i].verified
    {
      var run := RunAsWritten(template, peers, i, "sig", PathFor(random, i), oracle);
      assert |run.calls| == 3 ==> oracle.verify(run.calls[2].jwt) == Ok(false);
    }
    UniformPairs(pairs, conversations, false);
  }

  /** A peer listed twice keeps the verdict of its later evaluation. */
  lemma DuplicatePeerLastWins()
    ensures var pairs := [Eligibility("0xA", true), Eligibility("0xB", false), Eligibility("0xA", false)];
            Table(Some(pairs)) == map["0xA" := false, "0xB" := false]
  {
    var pairs := [Eligibility("0xA", true), Eligibility("0xB", false), Eligibility("0xA", false)];
    assert Addresses(pairs) == {"0xA", "0xB"} by {
      assert pairs[0].address == "0xA" && pairs[1].address == "0xB";
    }
  }
}

=== FILE: shared_template.dfy ===
/** The condition list as the component actually binds it.

    Line 97 of components/NavigationPanel.tsx takes a reference to the shared
    `condition.accessControlConditions`, not a copy, and line 99 writes the
    peer's address into it.  Every `getFiltered` call runs its binding
    synchronously during `peers.map`, and each call's `getSignedToken` runs only
    after its first `await` resumes, which is after the whole map.  So every
    token request reads the shared list after all peers have written to it. */
module SharedTemplate {
  import opened Results
  import opened Conditions
  import opened Resources
  import opened Authority
  import opened Evaluator
  import opened EligibilityMap
  import opened Conversations
  import opened Batch

  /** The shared list after each peer, in order, has bound its address into it
      in place.  A peer whose binding faults leaves it as it was. */
  function FanOutInPlace(shared: seq<Clause>, peers: seq<string>): (r: seq<Clause>)
    ensures |r| == |shared|
    // binding never changes the shape of the list, so it faults for every peer or for none
    ensures forall a :: Bind(r, a).Err? <==> Bind(shared, a).Err?
    decreases |peers|
  {
    if |peers| == 0 then shared
    else FanOutInPlace(Bind(shared, peers[0]).GetOr(shared), peers[1..])
  }

  /** After the fan-out the shared list names the LAST peer, so that is the
      address every token request of the batch is issued for. */
  lemma {:induction false} FanOutLeavesLastPeer(shared: seq<Clause>, peers: seq<string>)
    requires |peers| > 0 && Bind(shared, peers[0]).Ok?
    ensures Bind(shared, peers[|peers| - 1]).Ok?
    ensures FanOutInPlace(shared, peers) == Bind(shared, peers[|peers| - 1]).value
    ensures Subject(FanOutInPlace(shared, peers)) == Some(peers[|peers| - 1])
    decreases |peers|
  {
    var once := Bind(shared, peers[0]).value;
    var rest := peers[1..];
    if |rest| == 0 {
      assert FanOutInPlace(once, rest) == once;
    } else {
      FanOutLeavesLastPeer(once, rest);
      BindTwice(shared, peers[0], rest[|rest| - 1]);
    }
    BindThenSubject(shared, peers[|peers| - 1]);
  }

  /** The fan-out changes only the subject slot: binding an address into the
      shared list afterwards gives what binding it into the template gives. */
  lemma {:induction false} BindAfterFanOut(shared: seq<Clause>, peers: seq<string>, address: string)
    ensures Bind(FanOutInPlace(shared, peers), address) == Bind(shared, address)
    decreases |peers|
  {
    if |peers| > 0 {
      var next := Bind(shared, peers[0]).GetOr(shared);
      BindAfterFanOut(next, peers[1..], address);
      if Bind(shared, peers[0]).Ok? {
        BindTwice(shared, peers[0], address);
      }
    }
  }

  /** Peer `i`'s evaluation as written.  Its binding writes into the shared
      list as the earlier peers left it.  The registration is modelled as
      reading the list right after that write, the most favourable reading,
      since the SDK may read it later.  The token request is made after an
      `await`, so it reads the list as the whole fan-out left it. */
  function RunAsWritten(template: seq<Clause>, peers: seq<string>, i: nat, authSig: string,
                        path: string, oracle: Oracle): (r: PeerRun)
    requires i < |peers|
    ensures r.result.address == peers[i]
    ensures r.calls == [] <==> Bind(template, peers[i]).Err?
    ensures |r.calls| <= 3
    ensures |r.calls| >= 1 ==> r.calls[0].SaveCondition?
                               && Subject(r.calls[0].request.conditions) == Some(peers[i])
    // registration carries the template bound to peer i, everything else as authored
    ensures |r.calls| >= 1 ==> Ok(r.calls[0].request.conditions) == Bind(template, peers[i])
    // the token request names the LAST peer, whichever peer is being evaluated
    ensures |r.calls| >= 2 ==> r.calls[1].GetToken?
                               && r.calls[1].request.conditions == FanOutInPlace(template, peers)
                               && Subject(r.calls[1].request.conditions) == Some(peers[|peers| - 1])
    ensures |r.calls| == 3 ==> r.calls[2].VerifyToken?
                               && oracle.token(r.calls[1].request) == Ok(r.calls[2].jwt)
    // each step is taken exactly when the previous one succeeded
    ensures |r.calls| >= 2 ==> oracle.save(r.calls[0].request).Ok?
    ensures |r.calls| >= 1 && oracle.save(r.calls[0].request).Ok? ==> |r.calls| >= 2
    ensures |r.calls| >= 2 && oracle.token(r.calls[1].request).Ok? ==> |r.calls| == 3
    // both requests carry the evaluation's descriptor, the chain and the authSig
    ensures forall c :: c in r.calls && !c.VerifyToken? ==>
              c.request.resourceId == Resource(path) && c.request.chain == Chain
              && c.request.authSig == authSig
    // the verdict is verify's answer on the issued token, false when there is none
    ensures |r.calls| == 3 && oracle.verify(r.calls[2].jwt).Ok? ==>
              r.result.verified == oracle.verify(r.calls[2].jwt).value
    ensures r.result.verified <==> |r.calls| == 3 && oracle.verify(r.calls[2].jwt) == Ok(true)
  {
    match Bind(FanOutInPlace(template, peers[..i]), peers[i])
    case Err(_) => PeerRun(Eligibility(peers[i], false), [])
    case Ok(bound) =>
      BindThenSubject(FanOutInPlace(template, peers[..i]), peers[i]);
      BindAfterFanOut(template, peers[..i], peers[i]);
      FanOutLeavesLastPeer(template, peers);
      var resource := Resource(path);
      Protocol(peers[i], Request(bound, Chain, authSig, resource),
               Request(FanOutInPlace(template, peers), Chain, authSig, resource), oracle)
  }

  /** The batch as written: one evaluation per peer, in peer order. */
  function RunsAsWritten(template: seq<Clause>, peers: seq<string>, authSig: string,
                         random: nat -> string, oracle: Oracle): (r: seq<PeerRun>)
    ensures |r| == |peers|
    ensures forall i :: 0 <= i < |r| ==>
              r[i] == RunAsWritten(template, peers, i, authSig, PathFor(random, i), oracle)
  {
    seq(|peers|, i requires 0 <= i < |peers| =>
      RunAsWritten(template, peers, i, authSig, PathFor(random, i), oracle))
  }

  /** The list the panel shows as written, with filtering on. */
  function PanelAsWritten(conversations: seq<Conversation>, template: seq<Clause>, authSig: string,
                          random: nat -> string, oracle: Oracle): (r: seq<Conversation>)
    ensures IsSubsequence(r, conversations)
  {
    var runs := RunsAsWritten(template, Peers(conversations), authSig, random, oracle);
    Shown(conversations, true, Table(Some(Pairs(runs))))
  }

  /** As written, the panel lists every copy of each conversation whose peer's
      last as-written pair is `true`, and no copy of any other. */
  lemma PanelAsWrittenShowsLastVerdict(conversations: seq<Conversation>, template: seq<Clause>,
                                       authSig: string, random: nat -> string, oracle: Oracle)
    ensures var pairs := Pairs(RunsAsWritten(template, Peers(conversations), authSig, random, oracle));
            var shown := PanelAsWritten(conversations, template, authSig, random, oracle);
            forall c :: multiset(shown)[c] ==
              if LastVerdict(pairs, c.peerAddress) == Some(true) then multiset(conversations)[c] else 0
  {
    var pairs := Pairs(RunsAsWritten(template, Peers(conversations), authSig, random, oracle));
    KeepCounts(conversations, Table(Some(pairs)));
    forall c: Conversation
      ensures Eligible(Table(Some(pairs)), c.peerAddress) <==> LastVerdict(pairs, c.peerAddress) == Some(true)
    {
      TrueIffLastTrue(pairs, c.peerAddress);
    }
  }

  /** For the last peer nothing is written after its own binding, so its
      as-written evaluation is exactly the per-copy one. */
  lemma LastPeerAgrees(template: seq<Clause>, peers: seq<string>, authSig: string,
                       path: string, oracle: Oracle)
    requires |peers| > 0
    ensures RunAsWritten(template, peers, |peers| - 1, authSig, path, oracle)
            == Run(template, peers[|peers| - 1], Chain, authSig, path, oracle)
  {
    var n := |peers|;
    var last := peers[n - 1];
    if Bind(template, peers[0]).Ok? {
      FanOutLeavesLastPeer(template, peers);
      if n > 1 {
        FanOutLeavesLastPeer(template, peers[..n - 1]);
        BindTwice(template, peers[n - 2], last);
      } else {
        assert peers[..n - 1] == [];
      }
      assert Bind(FanOutInPlace(template, peers[..n - 1]), last) == Bind(template, last);
    }
  }

  /** Two peers, one `balanceOf` clause with one parameter: as written, the token request
      made while evaluating "0xA" is issued for "0xB"; with a copy per
      evaluation it is issued for "0xA". */
  lemma TwoPeersCounterexample(authSig: string, path: string, oracle: Oracle)
    ensures var template := [Condition([":userAddress"], map["method" := "balanceOf"])];
            var run := RunAsWritten(template, ["0xA", "0xB"], 0, authSig, path, oracle);
            |run.calls| >= 2 ==> Subject(run.calls[1].request.conditions) == Some("0xB")
    ensures var template := [Condition([":userAddress"], map["method" := "balanceOf"])];
            var run := Run(template, "0xA", Chain, authSig, path, oracle);
            |run.calls| >= 2 ==> Subject(run.calls[1].request.conditions) == Some("0xA")
  {
    var template := [Condition([":userAddress"], map["method" := "balanceOf"])];
    var run := Run(template, "0xA", Chain, authSig, path, oracle);
    if |run.calls| >= 2 {
      TokenRequestNamesAddress(template, "0xA", Chain, authSig, path, oracle);
    }
  }
}
